=== FILE: README.md ===
# Grid-snapping first-person controller, modelled in Dafny

This project models the decision logic of `GridFirstPersonController`, a Unity component that
moves a first-person character one grid tile at a time. Input is collapsed to one cardinal
direction. A walk session targets the tile exactly |gridSpacing| away along world x or z, or the
start itself when the desired move is too short to normalise. A wall hit
sends it back to its start tile, at most once per session. Footsteps are picked so that no clip
plays twice in a row, provided the pool holds distinct clips.

Engine floats are modelled as Dafny `real`. The engine's callbacks become pure transitions over
an immutable `Controller` record:

- `FixedUpdate` is the physics callback. It holds the re-entrancy guard and starts a session.
- `Resume` is one resumption of the `TileMove` routine. It either snaps onto the target, or runs
  one loop iteration and suspends again.

The engine's own work is passed in as parameters:

- the physics mover, as a function from the body and a displacement to a `MoveReport`;
- the body's grounded flag and measured speed;
- the collision flags;
- the random footstep draw.

Files:

- `vectors.dfy` (`Vectors`): vector arithmetic, plus the engine's `Normalize` on single-axis
  vectors. Its `kEpsilon` cut-off (1e-5) is modelled too.
- `input.dfy` (`InputAxis`): the input sampler `GetInput`.
- `gridstep.dfy` (`GridStep`): the camera-relative move, the world-axis collapse and the target
  tile.
- `collision.dfy` (`Collision`): the `OnControllerColliderHit` flag filter.
- `stride.dfy` (`Stride`): the stride accumulator `ProgressStepCycle`.
- `footsteps.dfy` (`Footsteps`): the swap-to-front footstep picker `PlayFootStepAudio`.
- `controller.dfy` (`GridController`): controller state, `Start`, `FixedUpdate`, and the walk
  routine as `BeginWalk` / `Resume` / `Advance` / `Iterate`.
- `session.dfy` (`WalkSession`): properties of whole sessions over any run of ticks.
- `outcomes.dfy` (`Outcomes`): `Option`, and `Result` with the one run-time fault.

Modelling notes:

- Every vector the source normalises has at most one nonzero component by then, so its length
  is the absolute value of that component. No square root is needed. Comparisons such as
  "length > margin" are written without roots, and lemmas tie them to the true length.
- The body turns only about the vertical axis; the camera pitches on its own. So the body's
  forward and right vectors are ground-plane vectors (`GridStep.Planar`).
- `OnControllerColliderHit` runs inside `CharacterController.Move`. That is before the move's
  result is stored in `m_CollisionFlags`, so the filter sees the flags of the previous move.
  `Iterate` models exactly this.
- An engine exception becomes `Failure(FootstepIndexOutOfRange)`. The one that can occur is a
  footstep drawn from a pool of fewer than two clips.
- The two axis collapses break ties differently, and both are modelled as the code has them. In
  `GetInput` a tie between the two magnitudes keeps the horizontal axis (line 222). The world-axis
  collapse in `TileMove` sends ties to z (line 92).

## Model

| member | source | states |
|---|---|---|
| InputAxis.Collapse | Assets/Scripts/GridFirstPersonController.cs:222-225 | the dominant axis is kept and the other zeroed; a tie keeps horizontal |
| InputAxis.GetInput | Assets/Scripts/GridFirstPersonController.cs:215-232 | the intent lies on one axis, is never longer than 1, and keeps its sign. It equals the dominant axis value when that is within [-1, 1], else its sign. It is zero exactly when both axes are zero |
| InputAxis.SquaredLengthTest | Assets/Scripts/GridFirstPersonController.cs:228-231 | for the collapsed vector, "squared length > 1" is the same test as "length > 1" |
| InputAxis.GetInputIdempotent | Assets/Scripts/GridFirstPersonController.cs:222-231 | sampling an already-sampled intent returns it unchanged |
| Vectors.NormalizeAxis2 | Assets/Scripts/GridFirstPersonController.cs:230 | normalising a single-axis 2D vector gives the unit vector with the same signs, or zero at or below the 1e-5 cut-off |
| Vectors.NormalizeAxis3 | Assets/Scripts/GridFirstPersonController.cs:97 | the same for the 3D desired move |
| Vectors.LongerThanMatchesLength | Assets/Scripts/GridFirstPersonController.cs:115 | the root-free loop test agrees with comparing the true length against the margin, including a negative margin |
| GridStep.CollapseToAxis | Assets/Scripts/GridFirstPersonController.cs:91-95 | z is kept when abs(z) >= abs(x) (ties go to z), otherwise x |
| GridStep.StepDirection | Assets/Scripts/GridFirstPersonController.cs:90-97 | the step direction is level, lies along the dominant world axis, and is the sign of that component. It is zero when that component is no longer than 1e-5 |
| GridStep.PlannedTargetIsOneCell | Assets/Scripts/GridFirstPersonController.cs:90-104 | the target is exactly abs(gridSpacing) from the start along x or z only, at the same height. If the direction is zero, the target is the start |
| GridStep.StepDirectionNonzeroIff | Assets/Scripts/GridFirstPersonController.cs:92-97 | a step has a direction exactly when the dominant world component exceeds the cut-off |
| GridStep.UnrotatedKeepsInputAxis | Assets/Scripts/GridFirstPersonController.cs:90-97 | with an unrotated body, a horizontal intent steps along x and a vertical one along z, with the intent's sign |
| Collision.RaisesWallHit | Assets/Scripts/GridFirstPersonController.cs:241-253 | the flag is raised exactly when the flags include Sides and a session is active. Flags equal to Below never raise it, so that early return is subsumed |
| Collision.OnControllerColliderHit | Assets/Scripts/GridFirstPersonController.cs:249-252 | the callback only ever raises the wall-hit flag, never clears it |
| Stride.Initial | Assets/Scripts/GridFirstPersonController.cs:48-49 | the accumulator starts with cycle 0 and threshold 0, so the threshold is not behind the cycle |
| Stride.Progress | Assets/Scripts/GridFirstPersonController.cs:158-174 | when the body moves and the intent is nonzero the cycle grows by exactly (measured speed + walk speed) * dt, otherwise it stays. A footstep falls due exactly when the cycle passes the threshold. The threshold then becomes cycle + interval; otherwise it stays |
| Stride.FirstMovingTickSteps | Assets/Scripts/GridFirstPersonController.cs:48-49 | from the initial accumulator, the first tick that moves the body with a nonzero intent is due a footstep |
| Stride.ProgressNeverDecreases | Assets/Scripts/GridFirstPersonController.cs:160-164 | with non-negative walk speed and time step, the cycle never decreases |
| Stride.ProgressKeepsThresholdAhead | Assets/Scripts/GridFirstPersonController.cs:166-171 | with a non-negative interval, the threshold stays at or ahead of the cycle |
| Stride.StandingStillIsSilent | Assets/Scripts/GridFirstPersonController.cs:160-169 | a tick without movement changes nothing and plays nothing while the threshold is ahead |
| Stride.RunMonotone | Assets/Scripts/GridFirstPersonController.cs:158-174 | over any run of ticks the cycle never decreases and the threshold stays ahead. A run with no movement plays no footstep |
| Footsteps.PlayFootStepAudio | Assets/Scripts/GridFirstPersonController.cs:177-191 | ungrounded: nothing changes. Grounded: it succeeds exactly when the pool has at least two clips. It plays the drawn slot, which moves to slot 0 while old slot 0 moves to the drawn slot. Other slots are unchanged and the result is a permutation |
| Footsteps.SwapIsPermutation | Assets/Scripts/GridFirstPersonController.cs:185-190 | the swap-to-front is a permutation of the pool |
| Footsteps.SwapKeepsDistinct | Assets/Scripts/GridFirstPersonController.cs:189-190 | the swap keeps a duplicate-free pool duplicate-free |
| Footsteps.NoImmediateRepeat | Assets/Scripts/GridFirstPersonController.cs:183-190 | in two grounded plays in a row from a duplicate-free pool, the second clip differs from the first |
| Footsteps.TwoClipsAlternate | Assets/Scripts/GridFirstPersonController.cs:185-190 | with two clips the draw is forced, and the clips strictly alternate |
| Footsteps.DrawFromThree | Assets/Scripts/GridFirstPersonController.cs:185-190 | drawing slot 2 from [a, b, c] plays c and leaves [c, b, a] |
| GridController.Start | Assets/Scripts/GridFirstPersonController.cs:22-52 | a new controller is idle, with no pending wall hit, collision flags None, a zero intent and move, and a stride accumulator at cycle 0 and threshold 0 |
| GridController.FixedUpdate | Assets/Scripts/GridFirstPersonController.cs:62-75 | during a session it changes nothing. With both axes at zero no session starts and the body does not move. A session starts only on nonzero input, from the current position, with the planned one-cell target and the walk speed. A session that ends at once leaves the body on the planned target. The pool stays a permutation. When idle, the sampled intent is stored and kept for the session |
| GridController.SetUpWalk | Assets/Scripts/GridFirstPersonController.cs:98-113 | the move is the step direction times the walk speed, with the vertical part kept. The session runs from the current position to the planned tile with its reversal unspent, and the hit flag is cleared. Nothing else changes |
| GridController.BeginWalk | Assets/Scripts/GridFirstPersonController.cs:82-113 | the session starts at the current position, targets the planned tile, and has its reversal unspent. If it is still walking after the first iteration on the ground, the move is the step direction times the speed horizontally and minus the stick force vertically |
| GridController.Resume | Assets/Scripts/GridFirstPersonController.cs:82-146 | with no session there is nothing to resume. During a session it ends only within the margin, exactly on the target, and otherwise continues with the one-reversal rule. A continuing tick stores the body and flags the mover reports for the scaled move, and the stride becomes the tick of the accumulator with the reported speed, the stored intent and the session speed. A due footstep on the reported ground swaps the drawn clip to the front; otherwise the pool is unchanged. Intent and facing are kept, and the pool keeps its size and stays a permutation |
| GridController.Advance | Assets/Scripts/GridFirstPersonController.cs:115-145 | a session ends only within the margin of its target, and then the body is exactly on the target. It continues only while farther. The start and speed are kept. A pending first wall hit retargets to the start and spends the reversal; otherwise target and reversal state are kept, and on the ground the horizontal move is kept with the stick speed. A continuing tick stores the body and flags the mover reports for the scaled move, and the stride becomes the tick of the accumulator with the reported speed, the stored intent and the session speed. A due footstep on the reported ground swaps the drawn clip to the front; otherwise the pool is unchanged. Intent and facing are kept, and the stride never decreases |
| GridController.ReverseOnWallHit | Assets/Scripts/GridFirstPersonController.cs:118-124 | the first pending wall hit negates the move, retargets to the start, clears the flag and marks the reversal spent. Otherwise nothing changes |
| GridController.ApplyVertical | Assets/Scripts/GridFirstPersonController.cs:127-134 | when grounded, the vertical speed is pinned to minus the stick force and the horizontal part is kept |
| GridController.Iterate | Assets/Scripts/GridFirstPersonController.cs:116-140 | one iteration keeps the session active, with the reversal rule above. On the ground the horizontal move is kept, or negated on a reversal, and the vertical speed is minus the stick force. The body and flags become what the mover reports for the scaled move. A contact while the stored flags include Sides raises the hit flag; without a contact the flag is only kept or cleared by the reversal. If the stored flags lack Sides, the hit flag is not raised. The stride then ticks with the reported speed, the stored intent and the session speed, and a due footstep on the reported ground swaps the drawn clip to the front; otherwise the pool is unchanged. Intent and facing are kept |
| GridController.SubmitMove | Assets/Scripts/GridFirstPersonController.cs:127-136 | vertical motion is applied, and the body and flags become the mover's report for the scaled move. A contact while the stored flags include Sides raises the hit flag; with no contact, or without Sides, the flag is kept. Nothing else changes |
| GridController.ProgressStepCycle | Assets/Scripts/GridFirstPersonController.cs:158-174 | the accumulator becomes the tick's new state. A due footstep on the ground swaps the drawn clip into slot 0 of the pool; otherwise the pool is unchanged. Nothing else changes. A fault needs a grounded footstep from a pool of fewer than two clips |
| WalkSession.SessionEndsAtTargetOrStart | Assets/Scripts/GridFirstPersonController.cs:113-145 | over any run, a session heads for its planned target until its one reversal, then for its start, and never reverses twice. An ended session leaves the body exactly on the target or on the start, and on the start if it had reversed |
| WalkSession.ResumesKeepPoolAndStride | Assets/Scripts/GridFirstPersonController.cs:136-190 | over any run the pool stays a permutation, and the stride cycle never decreases |
| WalkSession.WholeSession | Assets/Scripts/GridFirstPersonController.cs:62-146 | a session started from idle plans a target on the start or one cell away along x or z. Once ended, the body is exactly on that target or back on the start |
| WalkSession.ResumesEndAtTargetOrStart | Assets/Scripts/GridFirstPersonController.cs:113-145 | from a session heading for its plan or its start, or from a body already snapped onto the plan, any run that ends leaves the body on the planned target or on the start |
| WalkSession.RightwardStepScenario | Assets/Scripts/GridFirstPersonController.cs:62-110 | with spacing 6 and margin 0.1, an unrotated idle body given a rightward intent (horizontal positive, above the cut-off, and not smaller in magnitude than vertical) starts a session targeting start + (6, 0, 0) |
| WalkSession.RightwardPlan | Assets/Scripts/GridFirstPersonController.cs:90-115 | for such an intent the planned target is start + (6, 0, 0), which is farther than the 0.1 margin |
| WalkSession.RightwardDirection | Assets/Scripts/GridFirstPersonController.cs:90-97 | an unrotated rightward-dominant intent steps along world +x |
| WalkSession.OneCellRight | Assets/Scripts/GridFirstPersonController.cs:104-115 | one default grid spacing along +x lands 6 along x, farther than the default margin |
| Vectors.LongerThanAxis | Assets/Scripts/GridFirstPersonController.cs:115 | on a single-axis vector the root-free loop test compares the axis length with the margin |

## Left out

- Camera look (`RotateView`, `MouseLook`) and cursor locking: these are external helper classes. The facing (`Frame`) is a parameter the host may change between ticks.
- Head-bob (`UpdateCameraPosition`, `CurveControlledBob`): it only moves the camera, through an external helper, and affects nothing else here.
- Physics integration: collision resolution in `CharacterController.Move`, the body's grounded flag and its measured velocity are engine outputs. They come from the `Engine.move` parameter.
- Termination of the walk loop: it depends on the physics mover and may never reach a blocked target. Only per-step and partial-correctness properties are stated.
- Coroutine scheduling: when a suspended routine resumes relative to the physics callback is left to the host. `FixedUpdate` does nothing during a session, so the interleaving does not matter.
- `Random.Range`, audio playback and component lookup in `Start`: the draw is a parameter constrained by `Footsteps.ValidDraw`, and the clip played is returned, not played.
- `RoundVector3toInt`: it is referenced only from commented-out lines and relies on float rounding.
- IEEE float rounding: arithmetic is exact over `real`.
- Vectors.NormalizeAxis2: defined only for single-axis vectors, because the general case needs a square root. Every call in the source is on such a vector.
- Vectors.NormalizeAxis3: as above. Tilted body frames, where the desired move could have a vertical part, are outside the model.
- GridController.FixedUpdate: the source tests `m_Input.magnitude > 0`. The model tests the equivalent "intent is not the zero vector".
- GridController.ProgressStepCycle: on a fault the whole tick yields `Failure`, and the state is not kept. The engine would abandon the routine there and leave `isWalking` set.

=== FILE: collision.dfy ===
/**
 The collision callback's filter (`OnControllerColliderHit` in
 Assets/Scripts/GridFirstPersonController.cs). The engine reports contacts as a bit set of
 `CollisionFlags`; the callback raises the wall-hit flag that the walk routine consumes.
 */
module Collision {

  /** The engine's `CollisionFlags` bit set. */
  type CollisionFlags = bv8

  const FlagsNone: CollisionFlags := 0
  const Sides: CollisionFlags := 1
  const Above: CollisionFlags := 2
  const Below: CollisionFlags := 4

  /**
   Whether a contact raises the wall-hit flag. A contact reported as exactly `Below` (standing on
   something) is ignored first; otherwise the flag is raised when the flags include the side bit
   and a walk session is active. The early return for `Below` is subsumed by the side test.
   */
  function RaisesWallHit(flags: CollisionFlags, walking: bool): (raise: bool)
    ensures raise <==> (flags & Sides != 0 && walking)
    ensures flags == Below ==> !raise
    ensures !walking ==> !raise
  {
    if flags == Below then false
    else flags & Sides != 0 && walking
  }

  /** The wall-hit flag after the callback runs: it is raised or left as it was, never cleared. */
  function OnControllerColliderHit(collided: bool, flags: CollisionFlags, walking: bool): (r: bool)
    ensures collided ==> r
    ensures r <==> collided || (flags & Sides != 0 && walking)
  {
    if RaisesWallHit(flags, walking) then true else collided
  }
}

=== FILE: controller.dfy ===
/**
 The grid-walking controller as an explicit state machine (Assets/Scripts/GridFirstPersonController.cs).

 The engine drives the component through two entry points, modelled as pure transitions:
 - `FixedUpdate`, the fixed-rate physics callback: while idle it samples the input and, when
   the intent is nonzero, starts a walk session;
 - `Resume`, one resumption of the walk routine: it either snaps onto the target and ends the
   session, or runs one more loop iteration (wall-hit reversal, vertical motion, the physics
   move, the stride accumulator) and suspends again.
 Starting a session runs the routine up to its first suspension within the same `FixedUpdate`,
 as the engine does for a freshly started routine.

 The physics mover, the random footstep draw and the engine's grounded flag, collision flags
 and measured velocity are supplied by the engine (`Engine`, `Body`, `MoveReport`).
 */
module GridController {
  import opened Vectors
  import opened Outcomes
  import opened InputAxis
  import opened GridStep
  import opened Collision
  import opened Stride
  import opened Footsteps

  /** A footstep sound, by identity. */
  type Clip = nat

  /** The engine-owned character body: position, grounded flag and measured speed (`velocity.magnitude`). */
  datatype Body = Body(position: Vec3, grounded: bool, velocity: real)

  /**
   What one call of the physics mover reports: the body afterwards, the collision flags it
   returns, and whether it invoked the collision callback during the move.
   */
  datatype MoveReport = MoveReport(body: Body, flags: CollisionFlags, contact: bool)

  /** What the engine supplies to one tick: the physics mover and the footstep draw. */
  datatype Engine = Engine(move: (Body, Vec3) -> MoveReport, draw: int)

  /** The controller's settings, fixed after initialisation. */
  datatype Config = Config(
    walkSpeed: real,
    stickToGroundForce: real,
    gravityMultiplier: real,
    gravity: Vec3,
    stepInterval: real,
    gridSpacing: int,
    movementMargin: real,
    fixedDeltaTime: real)

  /** The script's own defaults for the grid spacing and the arrival margin. */
  const DefaultGridSpacing: int := 6
  const DefaultMovementMargin: real := 0.1

  /**
   An active walk session: the walk speed it started with, the start and current target
   positions, and whether the one wall-hit reversal has been spent.
   */
  datatype Walk = Walk(speed: real, start: Vec3, target: Vec3, alreadyCollided: bool)

  /** `isWalking` is `Walking?`. */
  datatype Session = Idle | Walking(walk: Walk)

  datatype Controller = Controller(
    body: Body,
    frame: Frame,
    moveDir: Vec3,
    input: Vec2,
    flags: CollisionFlags,
    collided: bool,
    stride: StepCycle,
    footsteps: seq<Clip>,
    session: Session)

  /** The controller as `Start` leaves it: idle, with an empty stride accumulator. */
  function Start(body: Body, frame: Frame, footsteps: seq<Clip>): (c: Controller)
    ensures c.session == Idle && !c.collided
    ensures c.stride == StepCycle(0.0, 0.0)
    ensures c.flags == FlagsNone && c.input == Zero2 && c.moveDir == Zero3
    ensures c.body == body && c.footsteps == footsteps
  {
    Controller(body, frame, Zero3, Zero2, FlagsNone, false, Stride.Initial(), footsteps, Idle)
  }

  /**
   The physics callback. While a session is active it does nothing; otherwise it clears the move
   vector, samples the intent and starts a session when the intent is nonzero (an intent's
   length is positive exactly when it is not the zero vector).
   */
  function FixedUpdate(c: Controller, cfg: Config, horizontal: real, vertical: real, engine: Engine)
    : (r: Result<Controller>)
    requires ValidDraw(engine.draw, |c.footsteps|)
    ensures c.session.Walking? ==> r == Ok(c)
    ensures c.session.Idle? && horizontal == 0.0 && vertical == 0.0 ==>
      r.Ok? && r.value.session.Idle? && r.value.body == c.body && r.value.stride == c.stride
    ensures r.Ok? && c.session.Idle? && r.value.session.Walking? ==>
      var w := r.value.session.walk;
      var planned := PlanTarget(c.body.position, StepDirection(c.frame, GetInput(horizontal, vertical)), cfg.gridSpacing);
      && (horizontal != 0.0 || vertical != 0.0)
      && w.start == c.body.position && w.target == planned && !w.alreadyCollided && w.speed == cfg.walkSpeed
    ensures r.Ok? && c.session.Idle? && r.value.session.Idle? && (horizontal != 0.0 || vertical != 0.0) ==>
      var planned := PlanTarget(c.body.position, StepDirection(c.frame, GetInput(horizontal, vertical)), cfg.gridSpacing);
      && r.value.body.position == planned
      && !LongerThan(Sub3(planned, c.body.position), cfg.movementMargin)
    ensures r.Ok? && c.session.Idle? ==> r.value.input == GetInput(horizontal, vertical)
    ensures r.Ok? ==> |r.value.footsteps| == |c.footsteps|
    ensures r.Ok? ==> multiset(r.value.footsteps) == multiset(c.footsteps)
    ensures r.Failure? ==> |c.footsteps| < 2
  {
    if c.session.Walking? then Ok(c)
    else
      var sampled := c.(moveDir := Zero3, input := GetInput(horizontal, vertical));
      if sampled.input != Zero2 then BeginWalk(sampled, cfg, cfg.walkSpeed, engine)
      else Ok(sampled)
  }

  /**
   Starts a session: the step direction is computed from the intent and the facing, the target
   is one grid spacing along it, the wall-hit flag is cleared, and the routine runs up to its
   first suspension. That first stretch never reverses, because the flag was just cleared.
   */
  function BeginWalk(c: Controller, cfg: Config, speed: real, engine: Engine): (r: Result<Controller>)
    requires ValidDraw(engine.draw, |c.footsteps|)
    ensures r.Ok? && r.value.session.Walking? ==>
      var w := r.value.session.walk;
      && w.start == c.body.position
      && w.target == PlanTarget(c.body.position, StepDirection(c.frame, c.input), cfg.gridSpacing)
      && w.speed == speed && !w.alreadyCollided
    ensures r.Ok? && r.value.session.Walking? && c.body.grounded ==>
      var dir := StepDirection(c.frame, c.input);
      r.value.moveDir == Vec3(dir.x * speed, -cfg.stickToGroundForce, dir.z * speed)
    ensures r.Ok? && r.value.session.Idle? ==>
      var planned := PlanTarget(c.body.position, StepDirection(c.frame, c.input), cfg.gridSpacing);
      && r.value.body.position == planned
      && !LongerThan(Sub3(planned, c.body.position), cfg.movementMargin)
    ensures r.Ok? ==> r.value.input == c.input && r.value.frame == c.frame
    ensures r.Ok? ==> |r.value.footsteps| == |c.footsteps|
    ensures r.Ok? ==> multiset(r.value.footsteps) == multiset(c.footsteps)
    ensures r.Failure? ==> |c.footsteps| < 2
  {
    Advance(SetUpWalk(c, cfg, speed), cfg, engine)
  }

  /**
   The set-up before the loop: the horizontal move is the step direction times the walk speed,
   the vertical move is kept, the session targets the planned tile from the current position,
   and the wall-hit flag is cleared. Nothing else changes.
   */
  function SetUpWalk(c: Controller, cfg: Config, speed: real): (r: Controller)
    ensures var dir := StepDirection(c.frame, c.input);
      r.moveDir == Vec3(dir.x * speed, c.moveDir.y, dir.z * speed)
    ensures r.session == Walking(Walk(speed, c.body.position,
                                      PlanTarget(c.body.position, StepDirection(c.frame, c.input), cfg.gridSpacing),
                                      false))
    ensures !r.collided
    ensures r.(moveDir := c.moveDir, collided := c.collided, session := c.session) == c
  {
    var dir := StepDirection(c.frame, c.input);
    var start := c.body.position;
    var walk := Walk(speed, start, PlanTarget(start, dir, cfg.gridSpacing), false);
    var moveDir := c.moveDir.(x := dir.x * speed, z := dir.z * speed);
    c.(moveDir := moveDir, collided := false, session := Walking(walk))
  }

  /** One resumption of the walk routine; with no session active there is nothing to resume. */
  function Resume(c: Controller, cfg: Config, engine: Engine): (r: Result<Controller>)
    requires ValidDraw(engine.draw, |c.footsteps|)
    ensures c.session.Idle? ==> r == Ok(c)
    ensures c.session.Walking? && r.Ok? && r.value.session.Idle? ==>
      !FarFromTarget(c, cfg) && r.value.body.position == c.session.walk.target
    ensures c.session.Walking? && r.Ok? && r.value.session.Walking? ==>
      var w := c.session.walk;
      var w' := r.value.session.walk;
      && FarFromTarget(c, cfg)
      && w'.start == w.start && w'.speed == w.speed
      && (ReversalDue(c) ==> w'.target == w.start && w'.alreadyCollided)
      && (!ReversalDue(c) ==> w'.target == w.target && w'.alreadyCollided == w.alreadyCollided)
    ensures c.session.Walking? && r.Ok? && r.value.session.Walking? ==>
      var report := engine.move(c.body, Scale3(r.value.moveDir, cfg.fixedDeltaTime));
      var t := Progress(c.stride, report.body.velocity, c.input != Zero2, c.session.walk.speed,
                        cfg.fixedDeltaTime, cfg.stepInterval);
      && r.value.body == report.body && r.value.flags == report.flags && r.value.stride == t.state
      && (t.footstep && report.body.grounded ==>
            |c.footsteps| >= 2 && SwappedToFront(c.footsteps, engine.draw, r.value.footsteps))
      && (!(t.footstep && report.body.grounded) ==> r.value.footsteps == c.footsteps)
    ensures r.Ok? ==> r.value.input == c.input && r.value.frame == c.frame
    ensures r.Ok? ==> |r.value.footsteps| == |c.footsteps|
    ensures r.Ok? ==> multiset(r.value.footsteps) == multiset(c.footsteps)
  {
    if c.session.Walking? then Advance(c, cfg, engine) else Ok(c)
  }

  /** The target is still farther away than the arrival margin. */
  predicate FarFromTarget(c: Controller, cfg: Config)
    requires c.session.Walking?
  {
    LongerThan(Sub3(c.session.walk.target, c.body.position), cfg.movementMargin)
  }

  /**
   The loop test: while the target is farther than the margin, run one iteration; otherwise
   snap exactly onto the target and end the session.
   */
  function Advance(c: Controller, cfg: Config, engine: Engine): (r: Result<Controller>)
    requires c.session.Walking? && ValidDraw(engine.draw, |c.footsteps|)
    ensures r.Ok? && r.value.session.Idle? ==>
      !FarFromTarget(c, cfg) && r.value.body.position == c.session.walk.target
    ensures r.Ok? && r.value.session.Walking? ==>
      var w := c.session.walk;
      var w' := r.value.session.walk;
      && FarFromTarget(c, cfg)
      && w'.start == w.start && w'.speed == w.speed
      && (ReversalDue(c) ==> w'.target == w.start && w'.alreadyCollided)
      && (!ReversalDue(c) ==> w'.target == w.target && w'.alreadyCollided == w.alreadyCollided)
    ensures r.Ok? && r.value.session.Walking? && !ReversalDue(c) && c.body.grounded ==>
      r.value.moveDir == Vec3(c.moveDir.x, -cfg.stickToGroundForce, c.moveDir.z)
    ensures r.Ok? && r.value.session.Walking? ==>
      var report := engine.move(c.body, Scale3(r.value.moveDir, cfg.fixedDeltaTime));
      var t := Progress(c.stride, report.body.velocity, c.input != Zero2, c.session.walk.speed,
                        cfg.fixedDeltaTime, cfg.stepInterval);
      && r.value.body == report.body && r.value.flags == report.flags && r.value.stride == t.state
      && (t.footstep && report.body.grounded ==>
            |c.footsteps| >= 2 && SwappedToFront(c.footsteps, engine.draw, r.value.footsteps))
      && (!(t.footstep && report.body.grounded) ==> r.value.footsteps == c.footsteps)
    ensures r.Ok? ==> r.value.input == c.input && r.value.frame == c.frame
    ensures r.Ok? ==> |r.value.footsteps| == |c.footsteps|
    ensures r.Ok? ==> multiset(r.value.footsteps) == multiset(c.footsteps)
    ensures r.Ok? && c.session.walk.speed >= 0.0 && cfg.fixedDeltaTime >= 0.0 ==>
      r.value.stride.cycle >= c.stride.cycle
    ensures r.Failure? ==> |c.footsteps| < 2
  {
    if FarFromTarget(c, cfg) then Iterate(c, cfg, engine)
    else Ok(c.(body := c.body.(position := c.session.walk.target), session := Idle))
  }

  /** A wall hit is pending and the session's one reversal has not been spent. */
  predicate ReversalDue(c: Controller)
    requires c.session.Walking?
  {
    c.collided && !c.session.walk.alreadyCollided
  }

  /**
   The first wall hit of a session turns the walk around: the move vector is negated, the
   target becomes the start, the hit flag is cleared and the reversal is marked spent.
   */
  function ReverseOnWallHit(c: Controller): (r: Controller)
    requires c.session.Walking?
    ensures r.session.Walking?
    ensures r.session.walk.start == c.session.walk.start && r.session.walk.speed == c.session.walk.speed
    ensures ReversalDue(c) ==>
      && r.session.walk.target == c.session.walk.start && r.session.walk.alreadyCollided
      && r.moveDir == Neg3(c.moveDir) && !r.collided
    ensures !ReversalDue(c) ==> r == c
    ensures r.body == c.body && r.flags == c.flags && r.stride == c.stride
    ensures r.footsteps == c.footsteps && r.input == c.input
  {
    var w := c.session.walk;
    if c.collided && !w.alreadyCollided then
      c.(moveDir := Neg3(c.moveDir), collided := false,
         session := Walking(w.(target := w.start, alreadyCollided := true)))
    else c
  }

  /**
   The vertical part of the move: pinned to the ground-stick speed when grounded, otherwise
   accelerated by gravity times its multiplier over one time step.
   */
  function ApplyVertical(moveDir: Vec3, grounded: bool, cfg: Config): (r: Vec3)
    ensures grounded ==> r.x == moveDir.x && r.z == moveDir.z && r.y == -cfg.stickToGroundForce
  {
    if grounded then moveDir.(y := -cfg.stickToGroundForce)
    else Add3(moveDir, Scale3(Scale3(cfg.gravity, cfg.gravityMultiplier), cfg.fixedDeltaTime))
  }

  /**
   One loop iteration: reverse on a pending wall hit, apply vertical motion, submit the move to
   the physics mover (which may call the collision callback; the callback still sees the flags
   of the previous move, as they are stored only once the move returns), then advance the stride.
   */
  function Iterate(c: Controller, cfg: Config, engine: Engine): (r: Result<Controller>)
    requires c.session.Walking? && ValidDraw(engine.draw, |c.footsteps|)
    ensures r.Ok? ==> r.value.session.Walking?
    ensures r.Ok? ==>
      var w := c.session.walk;
      var w' := r.value.session.walk;
      && w'.start == w.start && w'.speed == w.speed
      && (ReversalDue(c) ==> w'.target == w.start && w'.alreadyCollided)
      && (!ReversalDue(c) ==> w'.target == w.target && w'.alreadyCollided == w.alreadyCollided)
    ensures r.Ok? && c.flags & Sides == 0 ==> (r.value.collided ==> c.collided && !ReversalDue(c))
    ensures r.Ok? && ReversalDue(c) && c.body.grounded ==>
      r.value.moveDir == Vec3(-c.moveDir.x, -cfg.stickToGroundForce, -c.moveDir.z)
    ensures r.Ok? && !ReversalDue(c) && c.body.grounded ==>
      r.value.moveDir == Vec3(c.moveDir.x, -cfg.stickToGroundForce, c.moveDir.z)
    ensures r.Ok? ==>
      var report := engine.move(c.body, Scale3(r.value.moveDir, cfg.fixedDeltaTime));
      && r.value.body == report.body && r.value.flags == report.flags
      && (report.contact && c.flags & Sides != 0 ==> r.value.collided)
      && (!report.contact ==> r.value.collided == (c.collided && !ReversalDue(c)))
    ensures r.Ok? ==>
      var report := engine.move(c.body, Scale3(r.value.moveDir, cfg.fixedDeltaTime));
      var t := Progress(c.stride, report.body.velocity, c.input != Zero2, c.session.walk.speed,
                        cfg.fixedDeltaTime, cfg.stepInterval);
      && r.value.stride == t.state
      && (t.footstep && report.body.grounded ==>
            |c.footsteps| >= 2 && SwappedToFront(c.footsteps, engine.draw, r.value.footsteps))
      && (!(t.footstep && report.body.grounded) ==> r.value.footsteps == c.footsteps)
    ensures r.Ok? ==> r.value.input == c.input && r.value.frame == c.frame
    ensures r.Ok? ==> |r.value.footsteps| == |c.footsteps|
    ensures r.Ok? ==> multiset(r.value.footsteps) == multiset(c.footsteps)
    ensures r.Ok? && c.session.walk.speed >= 0.0 && cfg.fixedDeltaTime >= 0.0 ==>
      r.value.stride.cycle >= c.stride.cycle
    ensures r.Failure? ==> |c.footsteps| < 2
  {
    var moved := SubmitMove(ReverseOnWallHit(c), cfg, engine);
    ProgressStepCycle(moved, c.session.walk.speed, cfg, engine.draw)
  }

  /**
   The middle of one iteration: apply vertical motion and submit the move to the physics mover.
   The body and flags become the mover's report; a contact runs the collision callback, which
   still sees the stored flags of the previous move. Nothing else changes.
   */
  function SubmitMove(c: Controller, cfg: Config, engine: Engine): (r: Controller)
    requires c.session.Walking?
    ensures r.moveDir == ApplyVertical(c.moveDir, c.body.grounded, cfg)
    ensures var report := engine.move(c.body, Scale3(r.moveDir, cfg.fixedDeltaTime));
      && r.body == report.body && r.flags == report.flags
      && (report.contact && c.flags & Sides != 0 ==> r.collided)
      && (!report.contact || c.flags & Sides == 0 ==> r.collided == c.collided)
    ensures r.(moveDir := c.moveDir, body := c.body, flags := c.flags, collided := c.collided) == c
  {
    var moveDir := ApplyVertical(c.moveDir, c.body.grounded, cfg);
    var report := engine.move(c.body, Scale3(moveDir, cfg.fixedDeltaTime));
    var collided :=
      if report.contact then OnControllerColliderHit(c.collided, c.flags, c.session.Walking?)
      else c.collided;
    c.(moveDir := moveDir, body := report.body, flags := report.flags, collided := collided)
  }

  /**
   The stride accumulator's tick, followed by a footstep when one falls due. Nothing but the
   accumulator and the footstep pool changes.
   */
  function ProgressStepCycle(c: Controller, speed: real, cfg: Config, draw: int): (r: Result<Controller>)
    requires ValidDraw(draw, |c.footsteps|)
    ensures r.Ok? ==> r.value.(stride := c.stride, footsteps := c.footsteps) == c
    ensures var t := Progress(c.stride, c.body.velocity, c.input != Zero2, speed, cfg.fixedDeltaTime, cfg.stepInterval);
      r.Ok? ==> r.value.stride == t.state
    ensures var t := Progress(c.stride, c.body.velocity, c.input != Zero2, speed, cfg.fixedDeltaTime, cfg.stepInterval);
      r.Ok? && t.footstep && c.body.grounded ==>
        |c.footsteps| >= 2 && SwappedToFront(c.footsteps, draw, r.value.footsteps)
    ensures var t := Progress(c.stride, c.body.velocity, c.input != Zero2, speed, cfg.fixedDeltaTime, cfg.stepInterval);
      r.Ok? && !(t.footstep && c.body.grounded) ==> r.value.footsteps == c.footsteps
    ensures r.Ok? ==> multiset(r.value.footsteps) == multiset(c.footsteps)
    ensures r.Ok? ==> |r.value.footsteps| == |c.footsteps|
    ensures r.Ok? && speed >= 0.0 && cfg.fixedDeltaTime >= 0.0 ==> r.value.stride.cycle >= c.stride.cycle
    ensures r.Failure? ==> |c.footsteps| < 2 && c.body.grounded
  {
    var tick := Progress(c.stride, c.body.velocity, c.input != Zero2, speed, cfg.fixedDeltaTime, cfg.stepInterval);
    assert speed >= 0.0 && cfg.fixedDeltaTime >= 0.0 ==> tick.state.cycle >= c.stride.cycle by {
      if speed >= 0.0 && cfg.fixedDeltaTime >= 0.0 {
        ProgressNeverDecreases(c.stride, c.body.velocity, c.input != Zero2, speed, cfg.fixedDeltaTime, cfg.stepInterval);
      }
    }
    var stepped := c.(stride := tick.state);
    if !tick.footstep then Ok(stepped)
    else
      match PlayFootStepAudio(stepped.body.grounded, stepped.footsteps, draw)
      case Ok(played) => Ok(stepped.(footsteps := played.pool))
      case Failure(e) => Failure(e)
  }
}

=== FILE: footsteps.dfy ===
/**
 The footstep picker (`PlayFootStepAudio` in Assets/Scripts/GridFirstPersonController.cs).
 Slot 0 of the pool holds the clip played last; each play draws a slot from 1 up to the pool's
 end, plays that clip and swaps it into slot 0, so the same clip is never drawn twice in a row.
 The random draw is a parameter.
 */
module Footsteps {
  import opened Outcomes

  /**
   The values the engine's integer `Random.Range(1, size)` can return: a slot from 1 up to but
   excluding `size` when that range is non-empty, and never less than 1 otherwise.
   */
  predicate ValidDraw(n: int, size: nat) {
    1 <= n && (size >= 2 ==> n < size)
  }

  /** What one call produced: the clip played, if any, and the pool afterwards. */
  datatype Played<T> = Played(clip: Option<T>, pool: seq<T>)

  /** `after` is `before` with slots 0 and `n` exchanged and every other slot unchanged. */
  ghost predicate SwappedToFront<T>(before: seq<T>, n: nat, after: seq<T>)
    requires n < |before|
  {
    && |after| == |before|
    && after[0] == before[n]
    && after[n] == before[0]
    && forall i :: 0 <= i < |before| && i != 0 && i != n ==> after[i] == before[i]
  }

  /** No clip appears in two slots. */
  ghost predicate Distinct<T>(pool: seq<T>) {
    forall i, j :: 0 <= i < j < |pool| ==> pool[i] != pool[j]
  }

  /**
   Plays a footstep when grounded. With fewer than two clips the draw indexes past the end of
   the pool, which the engine raises as a run-time error.
   */
  function PlayFootStepAudio<T>(grounded: bool, pool: seq<T>, n: int): (r: Result<Played<T>>)
    requires ValidDraw(n, |pool|)
    ensures !grounded ==> r == Ok(Played(None, pool))
    ensures grounded ==> (r.Ok? <==> |pool| >= 2)
    ensures grounded && r.Ok? ==>
      r.value.clip == Some(pool[n]) && SwappedToFront(pool, n, r.value.pool)
    ensures r.Ok? ==> multiset(r.value.pool) == multiset(pool) && |r.value.pool| == |pool|
  {
    if !grounded then Ok(Played(None, pool))
    else if n >= |pool| then Failure(FootstepIndexOutOfRange)
    else
      var clip := pool[n];
      var pool' := pool[n := pool[0]][0 := clip];
      SwapIsPermutation(pool, n, pool');
      Ok(Played(Some(clip), pool'))
  }

  /** Swapping a slot to the front rearranges the pool: it is a permutation. */
  lemma SwapIsPermutation<T>(before: seq<T>, n: nat, after: seq<T>)
    requires n < |before| && SwappedToFront(before, n, after)
    ensures multiset(after) == multiset(before)
  {
    var mid := before[n := before[0]];
    assert after == mid[0 := before[n]];
    calc {
      multiset(after);
    ==
      multiset(mid[0 := before[n]]);
    ==
      multiset(mid) - multiset{mid[0]} + multiset{before[n]};
    ==
      multiset(before) - multiset{before[n]} + multiset{before[0]} - multiset{mid[0]} + multiset{before[n]};
    }
    if n != 0 {
      assert mid[0] == before[0];
    }
  }

  /** Swapping two slots keeps a duplicate-free pool duplicate-free. */
  lemma SwapKeepsDistinct<T>(before: seq<T>, n: nat, after: seq<T>)
    requires n < |before| && SwappedToFront(before, n, after) && Distinct(before)
    ensures Distinct(after)
  {
    SwapIsPermutation(before, n, after);
    forall i, j | 0 <= i < j < |after|
      ensures after[i] != after[j]
    {
      var oi := if i == 0 then n else if i == n then 0 else i;
      var oj := if j == 0 then n else if j == n then 0 else j;
      assert after[i] == before[oi] && after[j] == before[oj];
      assert oi != oj;
    }
  }

  /**
   Two grounded plays in a row from a duplicate-free pool never play the same clip, and the pool
   stays a duplicate-free permutation of the original.
   */
  lemma {:induction false} NoImmediateRepeat<T>(pool: seq<T>, n1: int, n2: int)
    requires Distinct(pool) && |pool| >= 2
    requires ValidDraw(n1, |pool|) && ValidDraw(n2, |pool|)
    ensures var first := PlayFootStepAudio(true, pool, n1).value;
            var second := PlayFootStepAudio(true, first.pool, n2).value;
            second.clip != first.clip
            && multiset(second.pool) == multiset(pool) && Distinct(second.pool)
  {
    var first := PlayFootStepAudio(true, pool, n1).value;
    SwapIsPermutation(pool, n1, first.pool);
    SwapKeepsDistinct(pool, n1, first.pool);
    var second := PlayFootStepAudio(true, first.pool, n2).value;
    SwapIsPermutation(first.pool, n2, second.pool);
    SwapKeepsDistinct(first.pool, n2, second.pool);
    assert first.pool[n2] != first.pool[0];
  }

  /** With two clips the only possible draw is slot 1, so the clips strictly alternate. */
  lemma TwoClipsAlternate<T>(a: T, b: T, n1: int, n2: int)
    requires ValidDraw(n1, 2) && ValidDraw(n2, 2)
    ensures PlayFootStepAudio(true, [a, b], n1) == Ok(Played(Some(b), [b, a]))
    ensures PlayFootStepAudio(true, [b, a], n2) == Ok(Played(Some(a), [a, b]))
  {
    assert n1 == 1 && n2 == 1;
    assert [a, b][1 := a][0 := b] == [b, a];
    assert [b, a][1 := b][0 := a] == [a, b];
  }

  /** Drawing slot 2 from [a, b, c] plays c and leaves [c, b, a]. */
  lemma DrawFromThree<T>(a: T, b: T, c: T)
    ensures PlayFootStepAudio(true, [a, b, c], 2) == Ok(Played(Some(c), [c, b, a]))
  {
    assert [a, b, c][2 := a][0 := c] == [c, b, a];
  }
}

=== FILE: gridstep.dfy ===
/**
 The geometry of one grid step (the set-up half of `TileMove` in
 Assets/Scripts/GridFirstPersonController.cs): the intent is turned into a world-space move
 relative to the body's facing, collapsed onto the x or z axis, normalised, and scaled by the
 grid spacing to give the target tile.

 The body only ever turns about the vertical axis (the camera pitches separately), so its
 forward and right vectors lie in the ground plane; they are modelled as `Planar` vectors.
 */
module GridStep {
  import opened Vectors

  /** A direction in the ground plane: the x and z components of a level world vector. */
  datatype Planar = Planar(x: real, z: real)

  /** The body's facing: its forward and right vectors. */
  datatype Frame = Frame(forward: Planar, right: Planar)

  /** Facing along world +z with world +x to the right. */
  const Unrotated: Frame := Frame(Planar(0.0, 1.0), Planar(1.0, 0.0))

  /** The intent expressed in world space: forward scaled by the vertical axis plus right scaled by the horizontal one. */
  function DesiredMove(frame: Frame, input: Vec2): (d: Vec3)
    ensures d.y == 0.0
  {
    Vec3(frame.forward.x * input.y + frame.right.x * input.x,
         0.0,
         frame.forward.z * input.y + frame.right.z * input.x)
  }

  /** Keeps the world axis of larger magnitude and zeroes the other; a tie keeps z. */
  function CollapseToAxis(d: Vec3): (c: Vec3)
    ensures c.y == d.y
    ensures Abs(d.z) >= Abs(d.x) ==> c.x == 0.0 && c.z == d.z
    ensures Abs(d.z) < Abs(d.x) ==> c.z == 0.0 && c.x == d.x
  {
    if Abs(d.z) >= Abs(d.x) then d.(x := 0.0) else d.(z := 0.0)
  }

  /**
   The unit step direction: along z (or x, if x is strictly larger) with the sign of that
   component of the desired move, or no direction at all when that component is no larger than
   the normalisation cut-off.
   */
  function StepDirection(frame: Frame, input: Vec2): (dir: Vec3)
    ensures dir.y == 0.0
    ensures var d := DesiredMove(frame, input);
      Abs(d.z) >= Abs(d.x) ==>
        dir.x == 0.0 && dir.z == (if Abs(d.z) > NormalizeEpsilon then Sign(d.z) else 0.0)
    ensures var d := DesiredMove(frame, input);
      Abs(d.z) < Abs(d.x) ==>
        dir.z == 0.0 && dir.x == (if Abs(d.x) > NormalizeEpsilon then Sign(d.x) else 0.0)
  {
    var d := DesiredMove(frame, input);
    var c := CollapseToAxis(d);
    var dir := NormalizeAxis3(c);
    if Abs(d.z) >= Abs(d.x) then
      assert AxisMagnitude3(c) == Abs(d.z);
      assert dir == (if Abs(d.z) > NormalizeEpsilon then Vec3(0.0, 0.0, Sign(d.z)) else Zero3);
      dir
    else
      assert AxisMagnitude3(c) == Abs(d.x);
      assert dir == (if Abs(d.x) > NormalizeEpsilon then Vec3(Sign(d.x), 0.0, 0.0) else Zero3);
      dir
  }

  /** The target tile: the start displaced by the step direction times the grid spacing. */
  function PlanTarget(start: Vec3, dir: Vec3, gridSpacing: int): Vec3 {
    Add3(start, Scale3(dir, gridSpacing as real))
  }

  /** `target` is exactly one grid spacing from `start` along world x or world z, at the same height. */
  ghost predicate OneCellAway(start: Vec3, target: Vec3, gridSpacing: int) {
    && target.y == start.y
    && ((target.x == start.x && Abs(target.z - start.z) == Abs(gridSpacing as real))
        || (target.z == start.z && Abs(target.x - start.x) == Abs(gridSpacing as real)))
  }

  /**
   The planned target is one grid spacing away along a single world axis, unless the desired
   move is too short to normalise, in which case the target is the start itself.
   */
  lemma PlannedTargetIsOneCell(frame: Frame, input: Vec2, start: Vec3, gridSpacing: int)
    ensures var dir := StepDirection(frame, input);
            var target := PlanTarget(start, dir, gridSpacing);
            (dir == Zero3 ==> target == start)
            && (dir != Zero3 ==> OneCellAway(start, target, gridSpacing))
  {
    var dir := StepDirection(frame, input);
    var g := gridSpacing as real;
    var target := PlanTarget(start, dir, gridSpacing);
    if dir.x == 0.0 {
      assert target.x == start.x;
      if dir.z == 1.0 {
        assert target.z - start.z == g;
      } else if dir.z == -1.0 {
        assert target.z - start.z == -g;
      } else {
        assert dir == Zero3;
      }
    } else {
      assert dir.z == 0.0 && target.z == start.z;
      if dir.x == 1.0 {
        assert target.x - start.x == g;
      } else {
        assert dir.x == -1.0;
        assert target.x - start.x == -g;
      }
    }
  }

  /**
   The step has a direction exactly when the dominant world component of the desired move is
   longer than the normalisation cut-off.
   */
  lemma StepDirectionNonzeroIff(frame: Frame, input: Vec2)
    ensures var d := DesiredMove(frame, input);
            StepDirection(frame, input) != Zero3 <==>
              (if Abs(d.z) >= Abs(d.x) then Abs(d.z) else Abs(d.x)) > NormalizeEpsilon
  {
  }

  /**
   With an unrotated body the world axis chosen is the one the sampled intent uses: a
   horizontal intent steps along x and a vertical one along z.
   */
  lemma UnrotatedKeepsInputAxis(input: Vec2)
    requires input.x == 0.0 || input.y == 0.0
    ensures input.y == 0.0 && Abs(input.x) > NormalizeEpsilon ==>
      StepDirection(Unrotated, input) == Vec3(Sign(input.x), 0.0, 0.0)
    ensures input.x == 0.0 && Abs(input.y) > NormalizeEpsilon ==>
      StepDirection(Unrotated, input) == Vec3(0.0, 0.0, Sign(input.y))
  {
    var d := DesiredMove(Unrotated, input);
    assert d == Vec3(input.x, 0.0, input.y);
  }
}

=== FILE: input.dfy ===
/**
 The input sampler (`GetInput` in Assets/Scripts/GridFirstPersonController.cs): two analog axes
 are collapsed onto the dominant one and clamped to length at most one.
 */
module InputAxis {
  import opened Vectors

  /** Keeps the axis of larger magnitude and zeroes the other; a tie keeps the horizontal axis. */
  function Collapse(horizontal: real, vertical: real): (c: Vec2)
    ensures SingleAxis2(c)
    ensures Abs(horizontal) >= Abs(vertical) ==> c.y == 0.0 && c.x == horizontal
    ensures Abs(horizontal) < Abs(vertical) ==> c.x == 0.0 && c.y == vertical
  {
    if Abs(horizontal) >= Abs(vertical) then Vec2(horizontal, 0.0) else Vec2(0.0, vertical)
  }

  /**
   The intent vector sampled from the axes: one axis only, rescaled to unit length when its
   squared length exceeds one and left alone otherwise. For the collapsed single-axis vector the
   source's test "squared length above one" is the same as "length above one" (see
   `SquaredLengthTest`), which is how it is written here.
   */
  function GetInput(horizontal: real, vertical: real): (r: Vec2)
    ensures SingleAxis2(r) && AxisMagnitude2(r) <= 1.0
    ensures Abs(horizontal) >= Abs(vertical) ==>
      r.y == 0.0 && r.x == (if Abs(horizontal) <= 1.0 then horizontal else Sign(horizontal))
    ensures Abs(horizontal) < Abs(vertical) ==>
      r.x == 0.0 && r.y == (if Abs(vertical) <= 1.0 then vertical else Sign(vertical))
    ensures r == Zero2 <==> horizontal == 0.0 && vertical == 0.0
  {
    var c := Collapse(horizontal, vertical);
    if AxisMagnitude2(c) > 1.0 then
      var r := NormalizeAxis2(c);
      if Abs(horizontal) >= Abs(vertical) then
        assert AxisMagnitude2(c) == Abs(horizontal);
        assert r == Vec2(Sign(horizontal), 0.0);
        r
      else
        assert AxisMagnitude2(c) == Abs(vertical);
        assert r == Vec2(0.0, Sign(vertical));
        r
    else
      c
  }

  /** On a single-axis vector, the source's squared-length test agrees with the length test used above. */
  lemma SquaredLengthTest(c: Vec2)
    requires SingleAxis2(c)
    ensures SqrMagnitude2(c) > 1.0 <==> AxisMagnitude2(c) > 1.0
  {
    AxisMagnitude2IsLength(c);
    SquaredComparison(AxisMagnitude2(c), SqrMagnitude2(c), 1.0);
  }

  /** Sampling an intent vector again changes nothing: `GetInput` is idempotent. */
  lemma GetInputIdempotent(horizontal: real, vertical: real)
    ensures var r := GetInput(horizontal, vertical); GetInput(r.x, r.y) == r
  {
    var r := GetInput(horizontal, vertical);
    assert Collapse(r.x, r.y) == r;
  }
}

=== FILE: outcomes.dfy ===
/** Optional values and the outcome of an operation that can raise the engine's run-time error. */
module Outcomes {

  datatype Option<+T> = None | Some(value: T)

  /** The one run-time error the controller's logic can raise. */
  datatype Fault =
    /** The footstep draw indexed past the end of a pool with fewer than two clips. */
    | FootstepIndexOutOfRange

  datatype Result<+T> = Ok(value: T) | Failure(error: Fault)
}

=== FILE: session.dfy ===
/**
 Whole walk sessions: a session started by `FixedUpdate` followed by any number of
 resumptions of the walk routine (Assets/Scripts/GridFirstPersonController.cs, `TileMove`).
 Whether a session ever ends depends on the physics mover, so these are partial-correctness
 statements: they say what holds after any run of ticks, and where a session that has ended is.
 */
module WalkSession {
  import opened Vectors
  import opened Outcomes
  import opened InputAxis
  import opened GridStep
  import opened Footsteps
  import opened GridController

  /** Every engine tick in `engines` draws a footstep slot valid for a pool of `size` clips. */
  predicate DrawsValid(engines: seq<Engine>, size: nat) {
    forall i :: 0 <= i < |engines| ==> ValidDraw(engines[i].draw, size)
  }

  /** The controller after resuming the walk routine once per engine tick, stopping at a fault. */
  function Resumes(c: Controller, cfg: Config, engines: seq<Engine>): (r: Result<Controller>)
    requires DrawsValid(engines, |c.footsteps|)
    decreases |engines|
  {
    if |engines| == 0 then Ok(c)
    else
      match Resume(c, cfg, engines[0])
      case Failure(e) => Failure(e)
      case Ok(next) => Resumes(next, cfg, engines[1..])
  }

  /**
   The session begun at `start` with planned target `planned` is in a consistent state: until
   the one reversal is spent it heads for the planned target, and afterwards for the start.
   */
  ghost predicate HeadsForPlanOrStart(c: Controller, start: Vec3, planned: Vec3)
    requires c.session.Walking?
  {
    var w := c.session.walk;
    w.start == start && (if w.alreadyCollided then w.target == start else w.target == planned)
  }

  /** Resuming an idle controller, however often, changes nothing. */
  lemma {:induction false} IdleResumesChangeNothing(c: Controller, cfg: Config, engines: seq<Engine>)
    requires c.session.Idle? && DrawsValid(engines, |c.footsteps|)
    ensures Resumes(c, cfg, engines) == Ok(c)
    decreases |engines|
  {
    if |engines| > 0 {
      IdleResumesChangeNothing(c, cfg, engines[1..]);
    }
  }

  /**
   Over any run of resumptions a session keeps heading for its planned target or, once it has
   reversed, for its start; it never reverses twice; and if it ends, the body stands exactly on
   the planned target or exactly on the start, and on the start when it had already reversed.
   */
  lemma {:induction false} SessionEndsAtTargetOrStart(c: Controller, cfg: Config, engines: seq<Engine>,
                                                      start: Vec3, planned: Vec3)
    requires c.session.Walking? && HeadsForPlanOrStart(c, start, planned)
    requires DrawsValid(engines, |c.footsteps|)
    ensures var r := Resumes(c, cfg, engines);
      r.Ok? ==>
        && (r.value.session.Walking? ==>
              HeadsForPlanOrStart(r.value, start, planned)
              && (c.session.walk.alreadyCollided ==> r.value.session.walk.alreadyCollided))
        && (r.value.session.Idle? ==>
              r.value.body.position == planned || r.value.body.position == start)
        && (r.value.session.Idle? && c.session.walk.alreadyCollided ==> r.value.body.position == start)
    decreases |engines|
  {
    if |engines| > 0 {
      var step := Resume(c, cfg, engines[0]);
      if step.Ok? {
        var next := step.value;
        assert DrawsValid(engines[1..], |next.footsteps|) by {
          assert forall i :: 0 <= i < |engines[1..]| ==> engines[1..][i] == engines[i + 1];
        }
        if next.session.Walking? {
          SessionEndsAtTargetOrStart(next, cfg, engines[1..], start, planned);
        } else {
          IdleResumesChangeNothing(next, cfg, engines[1..]);
        }
      }
    }
  }

  /**
   Over any run of resumptions the footstep pool stays a permutation of itself, and with a
   non-negative walk speed and time step the stride cycle never decreases.
   */
  lemma {:induction false} ResumesKeepPoolAndStride(c: Controller, cfg: Config, engines: seq<Engine>)
    requires DrawsValid(engines, |c.footsteps|)
    requires c.session.Walking? ==> c.session.walk.speed >= 0.0
    requires cfg.fixedDeltaTime >= 0.0
    ensures var r := Resumes(c, cfg, engines);
      r.Ok? ==> multiset(r.value.footsteps) == multiset(c.footsteps) && r.value.stride.cycle >= c.stride.cycle
    decreases |engines|
  {
    if |engines| > 0 {
      var step := Resume(c, cfg, engines[0]);
      if step.Ok? {
        var next := step.value;
        assert DrawsValid(engines[1..], |next.footsteps|) by {
          assert forall i :: 0 <= i < |engines[1..]| ==> engines[1..][i] == engines[i + 1];
        }
        ResumesKeepPoolAndStride(next, cfg, engines[1..]);
      }
    }
  }

  /**
   A whole session from an idle controller: the input starts it, its planned target is the
   start or exactly one grid spacing from it along world x or z, and if the session has ended
   after any run of resumptions the body stands exactly on that target or back on the start.
   */
  lemma WholeSession(c: Controller, cfg: Config, horizontal: real, vertical: real, first: Engine,
                     engines: seq<Engine>)
    requires c.session.Idle? && ValidDraw(first.draw, |c.footsteps|)
    requires DrawsValid(engines, |c.footsteps|)
    ensures var planned := PlanTarget(c.body.position, StepDirection(c.frame, GetInput(horizontal, vertical)),
                                      cfg.gridSpacing);
      var begun := FixedUpdate(c, cfg, horizontal, vertical, first);
      && (planned == c.body.position || OneCellAway(c.body.position, planned, cfg.gridSpacing))
      && (begun.Ok? && (horizontal != 0.0 || vertical != 0.0) ==>
            var r := Resumes(begun.value, cfg, engines);
            r.Ok? && r.value.session.Idle? ==>
              r.value.body.position == planned || r.value.body.position == c.body.position)
  {
    var start := c.body.position;
    var planned := PlanTarget(start, StepDirection(c.frame, GetInput(horizontal, vertical)), cfg.gridSpacing);
    PlannedTargetIsOneCell(c.frame, GetInput(horizontal, vertical), start, cfg.gridSpacing);
    var begun := FixedUpdate(c, cfg, horizontal, vertical, first);
    if begun.Ok? && (horizontal != 0.0 || vertical != 0.0) {
      ResumesEndAtTargetOrStart(begun.value, cfg, engines, start, planned);
    }
  }

  /**
   From a controller that is either walking towards `planned` from `start` or has already
   snapped onto `planned`, any run of resumptions that ends leaves the body on one of the two.
   */
  lemma ResumesEndAtTargetOrStart(c: Controller, cfg: Config, engines: seq<Engine>, start: Vec3, planned: Vec3)
    requires DrawsValid(engines, |c.footsteps|)
    requires c.session.Walking? ==> HeadsForPlanOrStart(c, start, planned)
    requires c.session.Idle? ==> c.body.position == planned
    ensures var r := Resumes(c, cfg, engines);
      r.Ok? && r.value.session.Idle? ==> r.value.body.position == planned || r.value.body.position == start
  {
    if c.session.Walking? {
      SessionEndsAtTargetOrStart(c, cfg, engines, start, planned);
    } else {
      IdleResumesChangeNothing(c, cfg, engines);
    }
  }

  /**
   A rightward step with grid spacing 6 and margin 0.1: an unrotated idle body given a
   rightward intent (the horizontal axis dominant and positive, and longer than the
   normalisation cut-off) starts a session whose target is the start plus 6 along world x.
   */
  lemma RightwardStepScenario(c: Controller, cfg: Config, horizontal: real, vertical: real, first: Engine)
    requires c.session.Idle? && c.frame == Unrotated && ValidDraw(first.draw, |c.footsteps|)
    requires cfg.gridSpacing == DefaultGridSpacing && cfg.movementMargin == DefaultMovementMargin
    requires horizontal > NormalizeEpsilon && Abs(vertical) <= horizontal
    ensures var r := FixedUpdate(c, cfg, horizontal, vertical, first);
      r.Ok? ==>
        r.value.session.Walking?
        && r.value.session.walk.start == c.body.position
        && r.value.session.walk.target == Add3(c.body.position, Vec3(6.0, 0.0, 0.0))
  {
    var planned := RightwardPlan(c.body.position, horizontal, vertical, cfg.gridSpacing, cfg.movementMargin);
    var r := FixedUpdate(c, cfg, horizontal, vertical, first);
    if r.Ok? && r.value.session.Idle? {
      assert false;
    }
  }

  /** The plan behind that rightward step, stated apart from the controller. */
  lemma RightwardPlan(p: Vec3, horizontal: real, vertical: real, gridSpacing: int, margin: real)
    returns (planned: Vec3)
    requires gridSpacing == DefaultGridSpacing && margin == DefaultMovementMargin
    requires horizontal > NormalizeEpsilon && Abs(vertical) <= horizontal
    ensures planned == PlanTarget(p, StepDirection(Unrotated, GetInput(horizontal, vertical)), gridSpacing)
    ensures planned == Add3(p, Vec3(6.0, 0.0, 0.0))
    ensures LongerThan(Sub3(planned, p), margin)
  {
    RightwardDirection(horizontal, vertical);
    planned := OneCellRight(p, gridSpacing, margin);
  }

  /** A rightward-dominant intent, unrotated, steps along world +x. */
  lemma RightwardDirection(horizontal: real, vertical: real)
    requires horizontal > NormalizeEpsilon && Abs(vertical) <= horizontal
    ensures StepDirection(Unrotated, GetInput(horizontal, vertical)) == Vec3(1.0, 0.0, 0.0)
  {
    var input := GetInput(horizontal, vertical);
    assert input.y == 0.0 && input.x > NormalizeEpsilon;
    UnrotatedKeepsInputAxis(input);
  }

  /** One default grid spacing along +x lands 6 along x and clears the default margin. */
  lemma OneCellRight(p: Vec3, gridSpacing: int, margin: real) returns (planned: Vec3)
    requires gridSpacing == DefaultGridSpacing && margin == DefaultMovementMargin
    ensures planned == PlanTarget(p, Vec3(1.0, 0.0, 0.0), gridSpacing)
    ensures planned == Add3(p, Vec3(6.0, 0.0, 0.0))
    ensures LongerThan(Sub3(planned, p), margin)
  {
    planned := PlanTarget(p, Vec3(1.0, 0.0, 0.0), gridSpacing);
    assert planned == Vec3(p.x + 6.0, p.y, p.z);
    var gap := Sub3(planned, p);
    assert gap == Vec3(6.0, 0.0, 0.0);
    LongerThanAxis(gap, margin);
  }
}

=== FILE: stride.dfy ===
/**
 The stride accumulator (`ProgressStepCycle` in Assets/Scripts/GridFirstPersonController.cs):
 distance walked is accumulated into a step cycle, and a footstep is due each time the cycle
 passes the next threshold, which then moves one step interval beyond the cycle.
 */
module Stride {
  import opened Vectors

  datatype StepCycle = StepCycle(cycle: real, next: real)

  /** The outcome of one tick: the new accumulator and whether a footstep is due. */
  datatype StrideTick = StrideTick(state: StepCycle, footstep: bool)

  /**
   The accumulator as `Start` leaves it: an empty cycle with the threshold at half of it, that is
   at zero, so the first tick that moves the body at all makes a footstep due.
   */
  function Initial(): (s: StepCycle)
    ensures s.cycle == 0.0 && s.next == 0.0 && ThresholdAhead(s)
  {
    StepCycle(0.0, 0.0 / 2.0)
  }

  /** The threshold is not behind the cycle: no footstep is due until the cycle advances. */
  predicate ThresholdAhead(s: StepCycle) {
    s.cycle <= s.next
  }

  /**
   One tick. The cycle advances by (measured speed + walk speed) * dt only when the body moves
   (its measured speed is positive) and the intent is nonzero; a footstep is due exactly when the
   cycle has passed the threshold, and then the threshold moves to one interval past the cycle.
   */
  function Progress(s: StepCycle, velocity: real, inputActive: bool, speed: real, dt: real,
                    interval: real): (r: StrideTick)
    ensures r.footstep <==> r.state.cycle > s.next
    ensures r.footstep ==> r.state.next == r.state.cycle + interval
    ensures !r.footstep ==> r.state.next == s.next
    ensures velocity > 0.0 && inputActive ==> r.state.cycle == s.cycle + (velocity + speed) * dt
    ensures !(velocity > 0.0 && inputActive) ==> r.state.cycle == s.cycle
  {
    var cycle :=
      if velocity > 0.0 && inputActive then s.cycle + (velocity + speed) * dt
      else s.cycle;
    if !(cycle > s.next) then StrideTick(StepCycle(cycle, s.next), false)
    else StrideTick(StepCycle(cycle, cycle + interval), true)
  }

  /**
   From the initial accumulator, the first tick that moves the body with a nonzero intent, a
   non-negative walk speed and a positive time step makes a footstep due.
   */
  lemma FirstMovingTickSteps(velocity: real, speed: real, dt: real, interval: real)
    requires velocity > 0.0 && speed >= 0.0 && dt > 0.0
    ensures Progress(Initial(), velocity, true, speed, dt, interval).footstep
  {
    ProductGrows(velocity + speed, 0.0, dt);
  }

  /** With a non-negative walk speed and time step the cycle never decreases. */
  lemma ProgressNeverDecreases(s: StepCycle, velocity: real, inputActive: bool, speed: real,
                               dt: real, interval: real)
    requires speed >= 0.0 && dt >= 0.0
    ensures Progress(s, velocity, inputActive, speed, dt, interval).state.cycle >= s.cycle
  {
    if velocity > 0.0 && inputActive {
      ProductGrowsWeakly(velocity + speed, 0.0, dt);
    }
  }

  /** With a non-negative interval, every tick keeps the threshold ahead of the cycle. */
  lemma ProgressKeepsThresholdAhead(s: StepCycle, velocity: real, inputActive: bool, speed: real,
                                    dt: real, interval: real)
    requires interval >= 0.0
    ensures ThresholdAhead(Progress(s, velocity, inputActive, speed, dt, interval).state)
  {
  }

  /** While the threshold is ahead, a tick that does not move accumulates nothing and plays nothing. */
  lemma StandingStillIsSilent(s: StepCycle, velocity: real, inputActive: bool, speed: real,
                              dt: real, interval: real)
    requires ThresholdAhead(s) && !(velocity > 0.0 && inputActive)
    ensures Progress(s, velocity, inputActive, speed, dt, interval) == StrideTick(s, false)
  {
  }

  /** The measurements one tick feeds the accumulator. */
  datatype Sample = Sample(velocity: real, inputActive: bool)

  /**
   The accumulator after a run of ticks, and how many footsteps fell due along the way: the
   stride alone, as the walk loop's repeated calls of `ProgressStepCycle` (one per iteration,
   Assets/Scripts/GridFirstPersonController.cs line 138) drive it, with each tick's measured
   speed and intent given by a `Sample`.
   */
  function Run(s: StepCycle, samples: seq<Sample>, speed: real, dt: real, interval: real): (r: (StepCycle, nat))
    decreases |samples|
  {
    if |samples| == 0 then (s, 0)
    else
      var t := Progress(s, samples[0].velocity, samples[0].inputActive, speed, dt, interval);
      var rest := Run(t.state, samples[1..], speed, dt, interval);
      (rest.0, rest.1 + (if t.footstep then 1 else 0))
  }

  /**
   Over any run the cycle never decreases, a footstep falls due on a tick only when that tick
   advances the cycle past the threshold, and the threshold stays ahead.
   */
  lemma {:induction false} RunMonotone(s: StepCycle, samples: seq<Sample>, speed: real, dt: real,
                                       interval: real)
    requires speed >= 0.0 && dt >= 0.0 && interval >= 0.0 && ThresholdAhead(s)
    ensures Run(s, samples, speed, dt, interval).0.cycle >= s.cycle
    ensures ThresholdAhead(Run(s, samples, speed, dt, interval).0)
    ensures (forall i :: 0 <= i < |samples| ==> !(samples[i].velocity > 0.0 && samples[i].inputActive)) ==>
      Run(s, samples, speed, dt, interval) == (s, 0)
    decreases |samples|
  {
    if |samples| > 0 {
      var t := Progress(s, samples[0].velocity, samples[0].inputActive, speed, dt, interval);
      ProgressKeepsThresholdAhead(s, samples[0].velocity, samples[0].inputActive, speed, dt, interval);
      ProgressNeverDecreases(s, samples[0].velocity, samples[0].inputActive, speed, dt, interval);
      RunMonotone(t.state, samples[1..], speed, dt, interval);
      if forall i :: 0 <= i < |samples| ==> !(samples[i].velocity > 0.0 && samples[i].inputActive) {
        StandingStillIsSilent(s, samples[0].velocity, samples[0].inputActive, speed, dt, interval);
        assert forall i :: 0 <= i < |samples[1..]| ==> samples[1..][i] == samples[i + 1];
      }
    }
  }
}

=== FILE: vectors.dfy ===
/**
 Vector arithmetic for the grid controller, with `real` standing in for the engine's
 single-precision floats.

 The engine normalises vectors by dividing by their Euclidean length, which needs a square
 root. Every vector the controller normalises has at most one nonzero component (the axis
 collapse runs first), and for such a vector the length is exactly the absolute value of that
 component. `AxisMagnitude2` / `AxisMagnitude3` compute that length without a square root, and
 `NormalizeAxis2` / `NormalizeAxis3` are the engine's normalisation restricted to these vectors,
 including its rule that a vector no longer than `NormalizeEpsilon` normalises to zero.
 */
module Vectors {

  datatype Vec2 = Vec2(x: real, y: real)

  datatype Vec3 = Vec3(x: real, y: real, z: real)

  const Zero2: Vec2 := Vec2(0.0, 0.0)
  const Zero3: Vec3 := Vec3(0.0, 0.0, 0.0)

  /** The engine's `kEpsilon` for vectors: normalising a vector this short or shorter yields zero. */
  const NormalizeEpsilon: real := 0.00001

  function Abs(a: real): (r: real)
    ensures r >= 0.0
    ensures r == a || r == -a
  {
    if a < 0.0 then -a else a
  }

  lemma AbsSquare(a: real)
    ensures Abs(a) * Abs(a) == a * a
  {
    if a < 0.0 {
      assert Abs(a) * Abs(a) == (-a) * (-a);
    }
  }

  function Add3(a: Vec3, b: Vec3): Vec3 {
    Vec3(a.x + b.x, a.y + b.y, a.z + b.z)
  }

  function Sub3(a: Vec3, b: Vec3): Vec3 {
    Vec3(a.x - b.x, a.y - b.y, a.z - b.z)
  }

  function Scale3(v: Vec3, k: real): Vec3 {
    Vec3(v.x * k, v.y * k, v.z * k)
  }

  function Neg3(v: Vec3): Vec3 {
    Vec3(-v.x, -v.y, -v.z)
  }

  function SqrMagnitude2(v: Vec2): real {
    v.x * v.x + v.y * v.y
  }

  function SqrMagnitude3(v: Vec3): real {
    v.x * v.x + v.y * v.y + v.z * v.z
  }

  /** At most one component of `v` is nonzero. */
  predicate SingleAxis2(v: Vec2) {
    v.x == 0.0 || v.y == 0.0
  }

  /** At most one component of `v` is nonzero. */
  predicate SingleAxis3(v: Vec3) {
    (v.y == 0.0 && v.z == 0.0) || (v.x == 0.0 && v.z == 0.0) || (v.x == 0.0 && v.y == 0.0)
  }

  /** The sign of `a`: one, minus one or zero. */
  function Sign(a: real): (r: real)
    ensures r == 1.0 || r == -1.0 || r == 0.0
    ensures r == 0.0 <==> a == 0.0
  {
    if a > 0.0 then 1.0 else if a < 0.0 then -1.0 else 0.0
  }

  /** The length of a single-axis vector: the absolute value of its one nonzero component. */
  function AxisMagnitude2(v: Vec2): (m: real)
    requires SingleAxis2(v)
    ensures m >= 0.0
  {
    Abs(v.x) + Abs(v.y)
  }

  /** The length of a single-axis vector: the absolute value of its one nonzero component. */
  function AxisMagnitude3(v: Vec3): (m: real)
    requires SingleAxis3(v)
    ensures m >= 0.0
  {
    Abs(v.x) + Abs(v.y) + Abs(v.z)
  }

  /** `AxisMagnitude2` is the Euclidean length: its square is the squared length. */
  lemma AxisMagnitude2IsLength(v: Vec2)
    requires SingleAxis2(v)
    ensures AxisMagnitude2(v) * AxisMagnitude2(v) == SqrMagnitude2(v)
  {
    AbsSquare(v.x);
    AbsSquare(v.y);
  }

  /** `AxisMagnitude3` is the Euclidean length: its square is the squared length. */
  lemma AxisMagnitude3IsLength(v: Vec3)
    requires SingleAxis3(v)
    ensures AxisMagnitude3(v) * AxisMagnitude3(v) == SqrMagnitude3(v)
  {
    AbsSquare(v.x);
    AbsSquare(v.y);
    AbsSquare(v.z);
  }

  /** Dividing a number by its own absolute value gives its sign. */
  lemma DivideByOwnLength(a: real, m: real)
    requires m == Abs(a) && m > 0.0
    ensures a / m == Sign(a)
  {
    if a > 0.0 {
      assert a / a == 1.0;
    } else {
      assert a / (-a) == -1.0;
    }
  }

  /**
   The engine's `Vector2.Normalize` on a single-axis vector: the unit vector pointing the same
   way, or zero when the vector is no longer than `NormalizeEpsilon`.
   */
  function NormalizeAxis2(v: Vec2): (r: Vec2)
    requires SingleAxis2(v)
    ensures AxisMagnitude2(v) > NormalizeEpsilon ==> r == Vec2(Sign(v.x), Sign(v.y))
    ensures AxisMagnitude2(v) <= NormalizeEpsilon ==> r == Zero2
  {
    var m := AxisMagnitude2(v);
    if m > NormalizeEpsilon then
      if v.x == 0.0 then
        DivideByOwnLength(v.y, m);
        Vec2(v.x / m, v.y / m)
      else
        DivideByOwnLength(v.x, m);
        Vec2(v.x / m, v.y / m)
    else
      Zero2
  }

  /**
   The engine's `Vector3.Normalize` on a single-axis vector: the unit vector pointing the same
   way, or zero when the vector is no longer than `NormalizeEpsilon`.
   */
  function NormalizeAxis3(v: Vec3): (r: Vec3)
    requires SingleAxis3(v)
    ensures AxisMagnitude3(v) > NormalizeEpsilon ==> r == Vec3(Sign(v.x), Sign(v.y), Sign(v.z))
    ensures AxisMagnitude3(v) <= NormalizeEpsilon ==> r == Zero3
  {
    var m := AxisMagnitude3(v);
    if m > NormalizeEpsilon then
      if v.y == 0.0 && v.z == 0.0 then
        DivideByOwnLength(v.x, m);
        Vec3(v.x / m, v.y / m, v.z / m)
      else if v.x == 0.0 && v.z == 0.0 then
        DivideByOwnLength(v.y, m);
        Vec3(v.x / m, v.y / m, v.z / m)
      else
        DivideByOwnLength(v.z, m);
        Vec3(v.x / m, v.y / m, v.z / m)
    else
      Zero3
  }

  /**
   `v` is longer than `margin`, stated without a square root: lengths are non-negative, so a
   negative margin is always exceeded, and otherwise both sides may be squared.
   */
  predicate LongerThan(v: Vec3, margin: real) {
    margin < 0.0 || SqrMagnitude3(v) > margin * margin
  }

  /** `LongerThan` agrees with comparing the true length `m` of `v` against the margin. */
  lemma LongerThanMatchesLength(v: Vec3, m: real, margin: real)
    requires m >= 0.0 && m * m == SqrMagnitude3(v)
    ensures LongerThan(v, margin) <==> m > margin
  {
    SquaredComparison(m, SqrMagnitude3(v), margin);
  }

  /** On a single-axis vector, `LongerThan` compares the axis length against the margin. */
  lemma LongerThanAxis(v: Vec3, margin: real)
    requires SingleAxis3(v)
    ensures LongerThan(v, margin) <==> AxisMagnitude3(v) > margin
  {
    AxisMagnitude3IsLength(v);
    LongerThanMatchesLength(v, AxisMagnitude3(v), margin);
  }

  /** For a non-negative length `m` with square `sqr`, comparing squares against a non-negative bound compares lengths. */
  lemma SquaredComparison(m: real, sqr: real, bound: real)
    requires m >= 0.0 && m * m == sqr
    ensures (bound < 0.0 || sqr > bound * bound) <==> m > bound
  {
    if bound >= 0.0 {
      if m > bound {
        calc {
          sqr;
        ==
          m * m;
        > { ProductGrows(m, bound, m); }
          bound * m;
        ==
          m * bound;
        >= { ProductGrowsWeakly(m, bound, bound); }
          bound * bound;
        }
      } else {
        calc {
          sqr;
        ==
          m * m;
        <= { ProductGrowsWeakly(bound, m, m); }
          bound * m;
        ==
          m * bound;
        <= { ProductGrowsWeakly(bound, m, bound); }
          bound * bound;
        }
      }
    }
  }

  lemma ProductGrows(a: real, b: real, k: real)
    requires a > b && k > 0.0
    ensures a * k > b * k
  {
    assert (a - b) * k > 0.0;
  }

  lemma ProductGrowsWeakly(a: real, b: real, k: real)
    requires a >= b && k >= 0.0
    ensures a * k >= b * k
  {
    assert (a - b) * k >= 0.0;
  }
}
